=== FILE: README.md ===
# Ahyoo event site — a Dafny model of its request logic

Ahyoo is a web application where people sign up as individuals or as
organizations, log in, publish religious community events and browse them.
Almost all of it is page markup. This project models the decision logic
inside it:

- the event API: the required-field check on creation, the mapping of Arabic
  category labels to the category enumeration, and the clamped pagination of
  the newest-first listing (`EventsApi`);
- signup: validation, the taken-email check, role assignment, and the
  all-or-nothing creation of a user and its organization (`Signup`);
- login: credential checks and the token payload (`Login`);
- the add-event form: field updates, the attendee list, the speakers filter,
  the location object, the request body, and the no-token guard
  (`AddEventForm`);
- the events page: the category filter and the distinct category list
  (`EventsPage`).

The database is an immutable `Store.Db` record. It holds users keyed by email,
organizations, events and an id counter. Event creation and signup take a store
and return a new one, so "nothing changed" is an equality. Login and the
listing return no store, so they cannot change it. `Store.Valid` states
when a store is consistent. Its main clause is that a user is an organizer
exactly when they own an organization. The event API's request body is a
`JsValues.Json` value, and JavaScript truthiness, `??` and property-key
conversion are written out. Signup and login requests are records whose
fields are strings or absent (`Signup.SignupRequest`, `Login.LoginRequest`).

Foreign calls become function parameters:
- `parseDate` stands for `new Date(date)` plus the store accepting the date;
- `hash` stands for bcrypt hashing;
- `verify` stands for bcrypt compare;
- `sign` stands for JWT signing;
- `StoreFaults` are errors the database throws inside the signup transaction.

Some facts about the code that shape the model:
- `POST /api/events` checks no bearer token and attaches no organization. It
  requires `organizer` and `contact` in the body.
- The login token carries only `userId` and `role`. The login response has
  no organization id and no organization-owner flag.
- Signup answers every failure inside its transaction with 400.
- The listing projection has no `id` and no poster URL.

## Model

| member | source | states |
|---|---|---|
| `JsValues.SingletonArrayKey` | src/app/api/events/route.ts:45 | a one-element array holding a label is looked up as that label |
| `JsValues.KeyConversionThrows` | src/app/api/events/route.ts:45 | using an object with its own "toString" key as a property key throws, and so does an array holding such an object after string elements |
| `EventsApi.CategoryFor` | src/app/api/events/route.ts:30-45 | each of the four non-lecture labels gives its own category, and only that label does; every other key, including the lecture label, gives LECTURE |
| `EventsApi.CategoryAsWritten` | src/app/api/events/route.ts:30-45 | the lookup as written, where inherited `Object.prototype` members are found too (see Findings) |
| `EventsApi.PrototypeKeysEscapeFallback` | src/app/api/events/route.ts:30-45 | for every inherited member name, the written lookup yields that member, which is none of the five categories |
| `EventsApi.ToStringCategoryCounterexample` | src/app/api/events/route.ts:45 | category "toString" does not get the LECTURE fallback |
| `EventsApi.CategoryAsWrittenAgreesElsewhere` | src/app/api/events/route.ts:30-45 | on every key that is not an inherited member name, the written lookup and the corrected one agree |
| `EventsApi.CreateEvent` | src/app/api/events/route.ts:5-56 | a falsy title, date, time, location, organizer or contact gives 400 with the store unchanged; with all six present, an invalid date or a category whose key conversion throws gives 500 with the store unchanged; success happens exactly when all six are truthy, the date parses and the category converts to a key; on success exactly one event is appended with a fresh id, the body's title, description, time and posterUrl, the parsed date, location `{name: location, address}`, the mapped category, and speaker `""` when absent |
| `EventsApi.PostEvent` | src/app/api/events/route.ts:5-27 | a body that is not JSON, or is `null`, gives 500; any other non-object body gives 400 "Missing required fields"; an object body is handled as above; nothing but an object body can create an event |
| `EventsApi.ObjectCategoryWithToStringFails` | src/app/api/events/route.ts:45-54 | a complete body whose category is an object with its own "toString" key gives 500 and stores nothing |
| `EventsApi.UnlabelledCategoryIsLecture` | src/app/api/events/route.ts:45 | a created event whose category key is not a label is stored as LECTURE |
| `EventsApi.CreateEventPreservesValid` | src/app/api/events/route.ts:38-49 | event creation keeps the store consistent |
| `EventsApi.EffectivePage` | src/app/api/events/route.ts:63 | the page is at least 1; it is 1 when the parameter is absent, non-numeric, zero or negative, and otherwise equals the parameter |
| `EventsApi.EffectiveLimit` | src/app/api/events/route.ts:64 | the limit is in [1, 50]: 10 when absent, non-numeric or 0; 1 when negative; 50 above 50; otherwise the parameter itself |
| `EventsApi.Skip` | src/app/api/events/route.ts:66 | the offset is a non-negative multiple of the limit, and dividing it by the limit gives the number of earlier pages |
| `EventsApi.TotalPages` | src/app/api/events/route.ts:84 | the page count times the limit covers the total; one page fewer does not cover a non-zero total; the count is 0 exactly when the total is 0 |
| `EventsApi.Insert` | src/app/api/events/route.ts:71 | inserting one event into a newest-first list keeps it newest-first, adds exactly that event, and keeps everything else |
| `EventsApi.SortNewestFirst` | src/app/api/events/route.ts:71 | the ordering is by date, newest first, and contains exactly the stored events |
| `EventsApi.PageOf` | src/app/api/events/route.ts:72-73 | the window holds `min(take, remaining)` events, each read at its offset from `skip` |
| `EventsApi.ListEvents` | src/app/api/events/route.ts:57-89 | the metadata shows the clamped page and limit, the store's total and the ceiling page count; the data is newest-first, has at most `limit` entries, and is the projection of the page's window of the ordered events |
| `EventsApi.ListedEventsAreStored` | src/app/api/events/route.ts:68-81 | every listed entry is the projection of a stored event |
| `EventsApi.PagesAreContiguous` | src/app/api/events/route.ts:66-73 | page p followed by page p+1 is exactly the window of 2·limit events that starts at page p |
| `Signup.RoleFor` | src/app/api/auth/signup/route.ts:42 | the role is organizer exactly when the account type is "organization"; any other value, or none, gives user |
| `Signup.CatchMessage` | src/app/api/auth/signup/route.ts:89-97 | an aborted transaction answers "Missing organization data" exactly when the error message mentions organizationName, and "Server error" otherwise |
| `Signup.ContainsAt` | src/app/api/auth/signup/route.ts:94 | a string that occurs at some position is found by `includes` |
| `Signup.HandleSignup` | src/app/api/auth/signup/route.ts:5-99 | a missing name, email or password gives 400 "Missing fields"; a taken email gives 409; every failure has status 400 or 409 and leaves the store unchanged, and once the request passes those checks every failure is 400; an error thrown at the user insert, or at the organization insert of a named organization signup, answers 400 with the message the catch block picks for it; a success files the new email |
| `Signup.SignupSucceedsIff` | src/app/api/auth/signup/route.ts:21-79 | a signup succeeds exactly when it is admissible, the store raises no error, and an organization account has an organization name |
| `Signup.MissingOrganizationNameRollsBack` | src/app/api/auth/signup/route.ts:63-97 | an organization signup without a name answers 400 "Missing organization data", and the user created before the throw does not persist |
| `Signup.OrganizationSignupEffect` | src/app/api/auth/signup/route.ts:36-86 | a successful organization signup adds one organizer holding the bcrypt hash of the password, and one organization that the new user owns, with its name, a description defaulting to "" and the request's location; the response shows only id, email and name |
| `Signup.UserSignupEffect` | src/app/api/auth/signup/route.ts:36-87 | any other successful signup adds one plain user and no organization, and the response organization is null |
| `Signup.SignupPreservesValid` | src/app/api/auth/signup/route.ts:36-79 | signup keeps the store consistent: unique ids, one organization per owner, and organizer exactly when owning an organization |
| `Signup.AddUserPreservesValid` | src/app/api/auth/signup/route.ts:37-44 | adding a fresh plain user keeps the store consistent |
| `Signup.AddOrganizerPreservesValid` | src/app/api/auth/signup/route.ts:37-75 | adding a fresh organizer together with their organization keeps the store consistent |
| `Signup.UserIdsAfterInsert` | src/app/api/auth/signup/route.ts:37-44 | inserting a user under a new email adds exactly their id to the user ids |
| `Login.JwtSecret` | src/app/api/auth/login/route.ts:6 | the secret is the environment's when non-empty, otherwise "dev-secret" |
| `Login.HandleLogin` | src/app/api/auth/login/route.ts:8-31 | a missing email or password gives 400; success happens exactly when the email is known and the password verifies; every other case is the single 401 "Invalid credentials"; the token signs `{userId, role}` for seven days, and the user projection is `{id, email, name}` |
| `Login.FailuresLookAlike` | src/app/api/auth/login/route.ts:13-21 | an unknown email and a wrong password give identical answers |
| `Login.SignupThenLogin` | src/app/api/auth/login/route.ts:13-30 | after a successful signup, logging in with the same credentials succeeds, with a token carrying the new id and the role from the account type, provided `verify` accepts a password against its own hash |
| `AddEventForm.SelectableCategories` | src/app/events/add/page.tsx:34-42 | the form's first five category options are API labels; the last two are unknown to the API and become LECTURE |
| `AddEventForm.HandleInputChange` | src/app/events/add/page.tsx:99-101 | the named field takes the value and every other field is unchanged |
| `AddEventForm.AddAttendee` | src/app/events/add/page.tsx:517 | adding grows the list by one empty entry at the end and keeps the earlier entries |
| `AddEventForm.EditAttendee` | src/app/events/add/page.tsx:492-495 | editing replaces only that entry and keeps the length |
| `AddEventForm.RemoveAttendee` | src/app/events/add/page.tsx:503-505 | removing deletes exactly that entry and shifts the later ones; removing the last entry leaves `[""]`; the result is never empty |
| `AddEventForm.Step` | src/app/events/add/page.tsx:488-518 | no single action empties a non-empty list |
| `AddEventForm.ReplayKeepsNonEmpty` | src/app/events/add/page.tsx:488-518 | no sequence of actions empties a non-empty list |
| `AddEventForm.AttendeesNeverEmpty` | src/app/events/add/page.tsx:61 | starting from `[""]`, the list is never empty |
| `AddEventForm.TrimStart` | src/app/events/add/page.tsx:121 | the result is a suffix of the input, everything dropped is white space, and it starts with a non-space character |
| `AddEventForm.TrimEnd` | src/app/events/add/page.tsx:121 | the result is a prefix of the input, everything dropped is white space, and it ends with a non-space character |
| `AddEventForm.IsSpeakerIff` | src/app/events/add/page.tsx:121 | an entry counts as a speaker exactly when it has a non-white-space character |
| `AddEventForm.Speakers` | src/app/events/add/page.tsx:121 | every speaker is a non-blank attendee, and every non-blank attendee is a speaker |
| `AddEventForm.SpeakersKeepOrder` | src/app/events/add/page.tsx:121 | the speakers are the attendees at the ascending indices of the non-blank entries |
| `AddEventForm.OrUndefined` | src/app/events/add/page.tsx:108-110 | a field is undefined exactly when it is empty, and otherwise is the string itself |
| `AddEventForm.LocationOf` | src/app/events/add/page.tsx:107-111 | region, addressDetail and mapsLink each appear exactly when non-empty, and then carry the form's own value |
| `AddEventForm.Payload` | src/app/events/add/page.tsx:113-124 | the body has exactly the nine form keys and no `organizer`; title, description, date, time, contact and category carry the form's own values; it carries the location object, the speakers, and the poster URL or null |
| `AddEventForm.EditedFieldIsSent` | src/app/events/add/page.tsx:99-124 | a value typed into a top-level field is what the body sends under that field's key |
| `AddEventForm.ContactUntouched` | src/app/events/add/page.tsx:426-472 | edits through the rendered inputs, none of which is the (commented-out) contact input, never change `contact` |
| `AddEventForm.SentContactIsEmpty` | src/app/events/add/page.tsx:47-119 | starting from the initial form, the posted `contact` is always the empty string, which the API's required-field check treats as missing |
| `AddEventForm.HandleSubmit` | src/app/events/add/page.tsx:126-140 | no request is sent exactly when there is no non-empty stored token; otherwise the payload is posted to /api/events with `Bearer <token>` |
| `AddEventForm.SubmittedEventsAreRejected` | src/app/events/add/page.tsx:113-124 | every event the form posts is refused by the API's required-field check (400) and nothing is stored |
| `EventsPage.FilteredEvents` | src/app/events/page.tsx:52-54 | with no category selected all events are shown; otherwise exactly the events of that category are shown |
| `EventsPage.FilteredEventsKeepOrder` | src/app/events/page.tsx:52-54 | the shown events are the list at the ascending indices of that category |
| `EventsPage.EmptyStateIff` | src/app/events/page.tsx:126 | the empty-state message shows exactly when the list is empty or no event has the selected category |
| `EventsPage.Categories` | src/app/events/page.tsx:56 | the categories have no duplicates and are exactly the events' categories |
| `EventsPage.CategoriesInFirstOccurrenceOrder` | src/app/events/page.tsx:56 | the categories are ordered by their first appearance in the list |
| `EventsPage.MockCategories` | src/app/events/page.tsx:11-56 | the page's own list yields four category buttons, in list order |
| `Seqs.KeptIndicesSpec` | src/app/events/add/page.tsx:121 | the indices kept by `filter` are ascending, in range, and exactly those whose element passes |
| `Seqs.FilterIsSubsequence` | src/app/events/page.tsx:53 | `filter` reads the list at the ascending indices of the passing elements, with no reordering |
| `Seqs.DistinctFirstOccurrenceOrder` | src/app/events/page.tsx:56 | `Array.from(new Set(xs))` lists elements in the order of their first occurrence |
| `Seqs.FirstIndexOfPrefix` | src/app/events/page.tsx:56 | extending a list does not move the first occurrence of an element already in it |

## Findings

| source | as written | input that shows it | evidently intended | confidence | as-written member | corrected member |
|---|---|---|---|---|---|---|
| src/app/api/events/route.ts:30-45 | `categoryMap` is a plain object literal, so `categoryMap[category]` also finds inherited `Object.prototype` members; they are not nullish, so `?? "LECTURE"` does not apply | a body with `category: "toString"` (also "constructor", "valueOf", "__proto__", ...) | every category other than the five labels is stored as LECTURE | medium, not executed | `EventsApi.CategoryAsWritten` (shown by `EventsApi.ToStringCategoryCounterexample`) | `EventsApi.CategoryFor` (used by `EventsApi.CreateEvent`) |

## Left out

- Prisma, bcrypt, JWT and Supabase are external. The store is a record; hashing, comparing, signing and date parsing are function parameters.
- `EventsApi.CreateEvent`: does not model the store rejecting non-string field values (a numeric title, say). Fields are stored as received. Only an invalid date, or a category whose key conversion throws, leads to the 500 answer.
- `EventsApi.CreateEvent`: an inherited category key would, in the code, put a non-enumeration value in the create call. The model stores the corrected category instead (see Findings).
- `EventsApi.ListEvents`: a failing count or find (500 "Server error") is not modelled. The two reads run one after the other instead of concurrently.
- `EventsApi.SortNewestFirst`: the database does not specify an order among events with the same date. The model fixes one order, so only the newest-first property is meaningful for ties.
- `EventsApi.EffectivePage`: query parameters are whole numbers or absent. Fractional values such as "2.5" and `Number()`'s other coercions are not modelled.
- `EventsApi.EffectiveLimit`: the same restriction to whole numbers or absent applies.
- Dates are abstract integer keys. Date parsing, time zones and the `time` string are not interpreted.
- Signup and login bodies that are not JSON objects: a string, number, boolean or array destructures to undefined fields, which is the all-absent request and gets 400. A `null` body or malformed JSON throws outside any `try` in those two handlers; the framework's default error answer is not modelled. `POST /api/events` models all of these (`EventsApi.PostEvent`).
- `Login.HandleLogin`: `email` and `password` are strings or absent. Other JSON types reach the database lookup in the code and are not modelled. The `console.log` of the user is output only.
- `Signup.HandleSignup`: an exception from bcrypt before the transaction is not modelled. The code does not catch it there.
- `Signup.HandleSignup`: request fields are strings or absent. The code casts any JSON value (`body as {...}`); a truthy non-string `email` passes the field check and reaches the database lookup outside the `try`, and that path is not modelled.
- `Signup.OrganizationSignupEffect`: states that the stored hash is `hash(password, 10)`. It does not state that this differs from the raw password, which depends on bcrypt.
- The GET handler for a single event, `src/app/api/events/[id]/route.ts`, is not part of this model. Neither is the detail page.
- The image upload (`handleImageUpload`), toasts, `fetch`, `localStorage`, router navigation and all JSX markup are I/O or presentation.
- The form's unused `attendees` field in `formData` is not modelled.
- The form's `contact` field (`AddEventForm.FormField.Contact`) exists in the state and is posted, but its input, like the speaker input, is commented out on the page; the model keeps the field and proves it stays empty (`AddEventForm.SentContactIsEmpty`).
- `AddEventForm.Step`: an edit or remove on a row that is not rendered leaves the list unchanged. The UI offers no such control. Writing past the end of a JavaScript array is not modelled.
- The login and signup pages, the navigation, the language toggle, the layout and the configuration contain no decision logic.

=== FILE: add_event_form.dfy ===
/** The add-event form: its field state, the editable attendee list, and
    the request `handleSubmit` builds from them. */
module AddEventForm {
  import opened Optional
  import opened JsValues
  import opened Seqs
  import opened Store
  import EventsApi

  /** The options of the category select. */
  const EventCategories: seq<string> := [
    EventsApi.MourningLabel, EventsApi.LectureLabel, EventsApi.PrayerLabel,
    EventsApi.SeminarLabel, EventsApi.CelebrationLabel,
    "دروس تفسير", "أمسيات شعرية"
  ]

  /** The first five options are the API's labels and keep their meaning;
      the last two are unknown to the API and are stored as lectures. */
  lemma SelectableCategories()
    ensures |EventCategories| == 7
    ensures forall i :: 0 <= i < 5 ==> EventCategories[i] in EventsApi.CategoryMap
    ensures EventsApi.CategoryFor(EventCategories[5]) == Lecture
    ensures EventsApi.CategoryFor(EventCategories[6]) == Lecture
  {
  }

  // ---------------------------------------------------------------------
  // Form fields
  // ---------------------------------------------------------------------

  datatype FormField = Title | Description | CategoryField | Date | Time | Region | AddressDetail | MapsLink | Contact

  datatype FormData = FormData(
    title: string,
    description: string,
    category: string,
    date: string,
    time: string,
    region: string,
    addressDetail: string,
    mapsLink: string,
    contact: string)

  /** The form's initial state: every field empty. */
  const InitialForm := FormData("", "", "", "", "", "", "", "", "")

  function Get(form: FormData, f: FormField): string {
    match f
    case Title => form.title
    case Description => form.description
    case CategoryField => form.category
    case Date => form.date
    case Time => form.time
    case Region => form.region
    case AddressDetail => form.addressDetail
    case MapsLink => form.mapsLink
    case Contact => form.contact
  }

  /** `handleInputChange(field, value)`: the named field takes the value and
      every other field keeps its own. */
  function HandleInputChange(form: FormData, field: FormField, value: string): (r: FormData)
    ensures Get(r, field) == value
    ensures forall f :: f != field ==> Get(r, f) == Get(form, f)
  {
    match field
    case Title => form.(title := value)
    case Description => form.(description := value)
    case CategoryField => form.(category := value)
    case Date => form.(date := value)
    case Time => form.(time := value)
    case Region => form.(region := value)
    case AddressDetail => form.(addressDetail := value)
    case MapsLink => form.(mapsLink := value)
    case Contact => form.(contact := value)
  }

  // ---------------------------------------------------------------------
  // Attendee list
  // ---------------------------------------------------------------------

  /** The list starts with one empty row. */
  const InitialAttendees: seq<string> := [""]

  /** The add button: one more empty row at the end. */
  function AddAttendee(a: seq<string>): (r: seq<string>)
    ensures |r| == |a| + 1 && r[|a|] == ""
    ensures forall i :: 0 <= i < |a| ==> r[i] == a[i]
  {
    a + [""]
  }

  /** Typing into row `idx`, which is rendered and so within the list. */
  function EditAttendee(a: seq<string>, idx: nat, value: string): (r: seq<string>)
    requires idx < |a|
    ensures |r| == |a| && r[idx] == value
    ensures forall i :: 0 <= i < |a| && i != idx ==> r[i] == a[i]
  {
    a[idx := value]
  }

  /** `a.filter((_, i) => i !== idx)`. */
  function WithoutIndex(a: seq<string>, idx: nat): seq<string> {
    if idx < |a| then a[..idx] + a[idx + 1..] else a
  }

  /** The remove button of row `idx`: drop that row, and put back a single
      empty row when none would be left. */
  function RemoveAttendee(a: seq<string>, idx: nat): (r: seq<string>)
    ensures r != []
    ensures idx < |a| && |a| > 1 ==>
      && |r| == |a| - 1
      && (forall i :: 0 <= i < idx ==> r[i] == a[i])
      && (forall i :: idx <= i < |r| ==> r[i] == a[i + 1])
    ensures idx < |a| && |a| == 1 ==> r == [""]
  {
    var kept := WithoutIndex(a, idx);
    if |kept| > 0 then kept else [""]
  }

  /** One user action on the attendee list. */
  datatype AttendeeAction = Add | Edit(idx: nat, value: string) | Remove(idx: nat)

  /** The list after one action. Edit and remove controls exist only for
      rendered rows, so an action on a row that is not rendered cannot
      happen; it leaves the list as it is. */
  function Step(a: seq<string>, act: AttendeeAction): (r: seq<string>)
    ensures a != [] ==> r != []
  {
    match act
    case Add => AddAttendee(a)
    case Edit(idx, value) => if idx < |a| then EditAttendee(a, idx, value) else a
    case Remove(idx) => if idx < |a| then RemoveAttendee(a, idx) else a
  }

  function Replay(a: seq<string>, acts: seq<AttendeeAction>): seq<string>
    decreases |acts|
  {
    if |acts| == 0 then a else Replay(Step(a, acts[0]), acts[1..])
  }

  /** No sequence of actions empties a non-empty list. */
  lemma {:induction false} ReplayKeepsNonEmpty(a: seq<string>, acts: seq<AttendeeAction>)
    requires a != []
    ensures Replay(a, acts) != []
    decreases |acts|
  {
    if |acts| > 0 {
      ReplayKeepsNonEmpty(Step(a, acts[0]), acts[1..]);
    }
  }

  /** From its initial `[""]`, the attendee list is never empty. */
  lemma AttendeesNeverEmpty(acts: seq<AttendeeAction>)
    ensures Replay(InitialAttendees, acts) != []
  {
    ReplayKeepsNonEmpty(InitialAttendees, acts);
  }

  // ---------------------------------------------------------------------
  // Speakers
  // ---------------------------------------------------------------------

  /** The characters `String.prototype.trim` removes: white space and line
      terminators. */
  predicate IsJsWhitespace(c: char) {
    var n := c as int;
    || n == 0x09 || n == 0x0A || n == 0x0B || n == 0x0C || n == 0x0D || n == 0x20
    || n == 0xA0 || n == 0x1680 || (0x2000 <= n <= 0x200A) || n == 0x2028 || n == 0x2029
    || n == 0x202F || n == 0x205F || n == 0x3000 || n == 0xFEFF
  }

  function TrimStart(s: string): (r: string)
    ensures |r| <= |s| && r == s[|s| - |r|..]
    ensures forall i :: 0 <= i < |s| - |r| ==> IsJsWhitespace(s[i])
    ensures |r| > 0 ==> !IsJsWhitespace(r[0])
  {
    if |s| > 0 && IsJsWhitespace(s[0]) then TrimStart(s[1..]) else s
  }

  function TrimEnd(s: string): (r: string)
    ensures |r| <= |s| && r == s[..|r|]
    ensures forall i :: |r| <= i < |s| ==> IsJsWhitespace(s[i])
    ensures |r| > 0 ==> !IsJsWhitespace(r[|r| - 1])
  {
    if |s| > 0 && IsJsWhitespace(s[|s| - 1]) then TrimEnd(s[..|s| - 1]) else s
  }

  /** `s.trim()`. */
  function Trim(s: string): string {
    TrimEnd(TrimStart(s))
  }

  /** `a && a.trim().length > 0`: the entry counts as a speaker. */
  predicate IsSpeaker(a: string) {
    a != "" && |Trim(a)| > 0
  }

  /** An entry counts as a speaker exactly when it has a character that is
      not white space. */
  lemma IsSpeakerIff(a: string)
    ensures IsSpeaker(a) <==> exists i :: 0 <= i < |a| && !IsJsWhitespace(a[i])
  {
  }

  /** The `speakers` sent: the attendee entries that are not blank. */
  function Speakers(attendees: seq<string>): (r: seq<string>)
    ensures forall k :: 0 <= k < |r| ==> IsSpeaker(r[k]) && r[k] in attendees
    ensures forall i :: 0 <= i < |attendees| && IsSpeaker(attendees[i]) ==> attendees[i] in r
  {
    Filter(IsSpeaker, attendees)
  }

  /** `speakers` is the attendee list read at the ascending indices of its
      non-blank entries: order kept, nothing added. */
  lemma SpeakersKeepOrder(attendees: seq<string>)
    ensures var idx := KeptIndices(IsSpeaker, attendees);
      && |Speakers(attendees)| == |idx|
      && StrictlyIncreasing(idx)
      && (forall k :: 0 <= k < |idx| ==> idx[k] < |attendees| && Speakers(attendees)[k] == attendees[idx[k]])
      && (forall i :: 0 <= i < |attendees| ==> (i in idx <==> IsSpeaker(attendees[i])))
  {
    FilterIsSubsequence(IsSpeaker, attendees);
  }

  // ---------------------------------------------------------------------
  // Payload and submission
  // ---------------------------------------------------------------------

  /** `s || undefined`. */
  function OrUndefined(s: string): (v: Json)
    ensures v == Undefined <==> s == ""
    ensures v != Undefined ==> v == Str(s)
  {
    if s == "" then Undefined else Str(s)
  }

  /** The `location` object as it goes on the wire: `JSON.stringify` drops
      the members that are `undefined`, so only non-empty fields remain. */
  function LocationOf(form: FormData): (loc: Json)
    ensures loc.Obj?
    ensures "region" in loc.fields <==> form.region != ""
    ensures "addressDetail" in loc.fields <==> form.addressDetail != ""
    ensures "mapsLink" in loc.fields <==> form.mapsLink != ""
    ensures forall k :: k in loc.fields ==> loc.fields[k].Str? && loc.fields[k].s != ""
    ensures form.region != "" ==> loc.fields["region"] == Str(form.region)
    ensures form.addressDetail != "" ==> loc.fields["addressDetail"] == Str(form.addressDetail)
    ensures form.mapsLink != "" ==> loc.fields["mapsLink"] == Str(form.mapsLink)
  {
    var fields := map[
      "region" := OrUndefined(form.region),
      "addressDetail" := OrUndefined(form.addressDetail),
      "mapsLink" := OrUndefined(form.mapsLink)];
    Obj(map k | k in fields && fields[k] != Undefined :: fields[k])
  }

  function StrAll(xs: seq<string>): seq<Json> {
    seq(|xs|, i requires 0 <= i < |xs| => Str(xs[i]))
  }

  /** The fields posted as top-level strings; the other three travel inside
      `location`. */
  predicate FlatField(f: FormField) {
    !f.Region? && !f.AddressDetail? && !f.MapsLink?
  }

  /** The key a field has in the form state, and in the body when flat. */
  function KeyOf(f: FormField): string {
    match f
    case Title => "title"
    case Description => "description"
    case CategoryField => "category"
    case Date => "date"
    case Time => "time"
    case Region => "region"
    case AddressDetail => "addressDetail"
    case MapsLink => "mapsLink"
    case Contact => "contact"
  }

  /** The keys of the submitted body. */
  const PayloadKeys: set<string> :=
    {"title", "description", "date", "time", "location", "contact", "speakers", "category", "posterUrl"}

  /** The JSON body `handleSubmit` posts. */
  function Payload(form: FormData, attendees: seq<string>, selectedImage: Option<string>): (p: map<string, Json>)
    ensures p.Keys == PayloadKeys
    ensures "organizer" !in p
    ensures forall f :: FlatField(f) ==> KeyOf(f) in p && p[KeyOf(f)] == Str(Get(form, f))
    ensures p["location"] == LocationOf(form)
    ensures p["speakers"] == Arr(StrAll(Speakers(attendees)))
    ensures p["posterUrl"] == (if selectedImage.Some? then Str(selectedImage.value) else Null)
  {
    map[
      "title" := Str(form.title),
      "description" := Str(form.description),
      "date" := Str(form.date),
      "time" := Str(form.time),
      "location" := LocationOf(form),
      "contact" := Str(form.contact),
      "speakers" := Arr(StrAll(Speakers(attendees))),
      "category" := Str(form.category),
      "posterUrl" := if selectedImage.Some? then Str(selectedImage.value) else Null]
  }

  datatype SubmitAction =
    | NoRequest
    | PostEvent(path: string, contentType: string, authorization: string, body: map<string, Json>)

  /** `handleSubmit`: without a stored token nothing is sent; otherwise the
      payload is posted with a bearer authorization header. */
  function HandleSubmit(form: FormData, attendees: seq<string>, selectedImage: Option<string>, storedToken: Option<string>): (act: SubmitAction)
    ensures act.NoRequest? <==> !Present(storedToken)
    ensures act.PostEvent? ==>
      && act.path == "/api/events"
      && act.authorization == "Bearer " + storedToken.value
      && act.body == Payload(form, attendees, selectedImage)
  {
    if !Present(storedToken) then NoRequest
    else PostEvent("/api/events", "application/json", "Bearer " + storedToken.value, Payload(form, attendees, selectedImage))
  }

  /** Whatever is typed into a flat field is what the body carries under
      that field's key. */
  lemma EditedFieldIsSent(form: FormData, f: FormField, value: string, attendees: seq<string>, selectedImage: Option<string>)
    requires FlatField(f)
    ensures Payload(HandleInputChange(form, f, value), attendees, selectedImage)[KeyOf(f)] == Str(value)
  {
  }

  /** One edit the user makes through a rendered input. */
  datatype FieldEdit = FieldEdit(field: FormField, value: string)

  function ApplyEdits(form: FormData, edits: seq<FieldEdit>): FormData
    decreases |edits|
  {
    if |edits| == 0 then form
    else ApplyEdits(HandleInputChange(form, edits[0].field, edits[0].value), edits[1..])
  }

  /** The page renders no input for `contact` (its input is commented out),
      so no sequence of edits the user can make touches that field. */
  lemma {:induction false} ContactUntouched(form: FormData, edits: seq<FieldEdit>)
    requires forall i :: 0 <= i < |edits| ==> edits[i].field != Contact
    ensures ApplyEdits(form, edits).contact == form.contact
    decreases |edits|
  {
    if |edits| > 0 {
      var next := HandleInputChange(form, edits[0].field, edits[0].value);
      assert Get(next, Contact) == Get(form, Contact);
      ContactUntouched(next, edits[1..]);
    }
  }

  /** Starting from the initial form, the posted `contact` is always the
      empty string, which the event API's required-field check treats as
      missing. */
  lemma SentContactIsEmpty(edits: seq<FieldEdit>, attendees: seq<string>, selectedImage: Option<string>)
    requires forall i :: 0 <= i < |edits| ==> edits[i].field != Contact
    ensures Payload(ApplyEdits(InitialForm, edits), attendees, selectedImage)["contact"] == Str("")
    ensures !Truthy(Payload(ApplyEdits(InitialForm, edits), attendees, selectedImage)["contact"])
  {
    var form := ApplyEdits(InitialForm, edits);
    ContactUntouched(InitialForm, edits);
    PayloadContact(form, attendees, selectedImage);
  }

  lemma PayloadContact(form: FormData, attendees: seq<string>, selectedImage: Option<string>)
    ensures Payload(form, attendees, selectedImage)["contact"] == Str(form.contact)
  {
    assert FlatField(Contact) && KeyOf(Contact) == "contact";
  }

  /** The form never sends `organizer`, which the event API requires, so
      every event this form submits is refused with 400 and nothing is
      stored, however completely the form is filled in. The posted
      `contact` is empty as well (`SentContactIsEmpty`), a second reason
      for the same answer. */
  lemma SubmittedEventsAreRejected(
    form: FormData, attendees: seq<string>, selectedImage: Option<string>, storedToken: Option<string>,
    db: Db, parseDate: Json -> Option<int>)
    requires HandleSubmit(form, attendees, selectedImage, storedToken).PostEvent?
    ensures EventsApi.CreateEvent(db, HandleSubmit(form, attendees, selectedImage, storedToken).body, parseDate)
      == (EventsApi.MissingFieldsError, db)
  {
    var body := Payload(form, attendees, selectedImage);
    assert "organizer" in EventsApi.RequiredFields && Field(body, "organizer") == Undefined;
  }
}

=== FILE: events_api.dfy ===
/** The event API: `POST /api/events` (validate, map the category label,
    store the event) and `GET /api/events` (clamp the pagination
    parameters, return one page of events newest first with metadata). */
module EventsApi {
  import opened Optional
  import opened JsValues
  import opened Store

  // ---------------------------------------------------------------------
  // Category labels
  // ---------------------------------------------------------------------

  const LectureLabel: string := "محاضرات دينية"
  const PrayerLabel: string := "قراءة الأدعية"
  const MourningLabel: string := "مجالس العزاء"
  const SeminarLabel: string := "ندوات فقهية"
  const CelebrationLabel: string := "مناسبات دينية"

  /** The own entries of the handler's `categoryMap` literal. */
  const CategoryMap: map<string, Category> := map[
    LectureLabel := Lecture,
    PrayerLabel := Prayer,
    MourningLabel := Mourning,
    SeminarLabel := Seminar,
    CelebrationLabel := Celebration
  ]

  /** Names every plain object literal inherits from `Object.prototype`;
      reading one of them from `categoryMap` yields a function or an object,
      never `undefined`. */
  const ObjectPrototypeMembers: set<string> := {
    "constructor", "hasOwnProperty", "isPrototypeOf", "propertyIsEnumerable",
    "toLocaleString", "toString", "valueOf", "__proto__",
    "__defineGetter__", "__defineSetter__", "__lookupGetter__", "__lookupSetter__"
  }

  /** What `(categoryMap[key] as Category) ?? "LECTURE"` evaluates to: an
      enumeration value, or an inherited prototype member that is not one. */
  datatype CategoryValue = Enum(c: Category) | PrototypeMember(name: string)

  /** The category lookup as the handler writes it, including the
      properties the object literal inherits. */
  function CategoryAsWritten(key: string): CategoryValue {
    if key in CategoryMap then Enum(CategoryMap[key])
    else if key in ObjectPrototypeMembers then PrototypeMember(key)
    else Enum(Lecture)
  }

  /** The category lookup as intended: the five labels map to their values
      and every other key falls back to the lecture category. */
  function CategoryFor(key: string): (c: Category)
    ensures c == Prayer <==> key == PrayerLabel
    ensures c == Mourning <==> key == MourningLabel
    ensures c == Seminar <==> key == SeminarLabel
    ensures c == Celebration <==> key == CelebrationLabel
    ensures c == Lecture <==> key !in {PrayerLabel, MourningLabel, SeminarLabel, CelebrationLabel}
  {
    if key in CategoryMap then CategoryMap[key] else Lecture
  }

  /** Every inherited member name escapes the lecture fallback, so the
      stored category would not be one of the five enumeration values. */
  lemma PrototypeKeysEscapeFallback(key: string)
    requires key in ObjectPrototypeMembers
    ensures CategoryAsWritten(key) == PrototypeMember(key)
    ensures forall c :: CategoryAsWritten(key) != Enum(c)
  {
    assert key !in CategoryMap by {
      assert forall l :: l in CategoryMap ==> l !in ObjectPrototypeMembers;
    }
  }

  /** Concretely: a request with category "toString" does not get LECTURE. */
  lemma ToStringCategoryCounterexample()
    ensures CategoryAsWritten("toString") != Enum(CategoryFor("toString"))
  {
    PrototypeKeysEscapeFallback("toString");
  }

  /** On every other key the written lookup and the intended one agree. */
  lemma CategoryAsWrittenAgreesElsewhere(key: string)
    requires key !in ObjectPrototypeMembers
    ensures CategoryAsWritten(key) == Enum(CategoryFor(key))
  {
  }

  // ---------------------------------------------------------------------
  // POST /api/events
  // ---------------------------------------------------------------------

  /** The body fields that must all be truthy, in the order the handler checks them. */
  const RequiredFields: seq<string> := ["title", "date", "time", "location", "organizer", "contact"]

  predicate HasRequiredFields(body: map<string, Json>) {
    && Truthy(Field(body, "title"))
    && Truthy(Field(body, "date"))
    && Truthy(Field(body, "time"))
    && Truthy(Field(body, "location"))
    && Truthy(Field(body, "organizer"))
    && Truthy(Field(body, "contact"))
  }

  datatype CreateResponse = EventCreated(event: Event) | CreateFailed(status: nat, error: string)

  const MissingFieldsError := CreateFailed(400, "Missing required fields")
  const ServerError := CreateFailed(500, "Server error")

  /** `POST /api/events` on a body that is a JSON object. `parseDate` stands
      for `new Date(date)` followed by the store's acceptance of the value:
      `None` is an invalid date, which makes the create call throw and the
      handler answer 500. A category whose key conversion throws leads to
      the same answer. */
  function CreateEvent(db: Db, body: map<string, Json>, parseDate: Json -> Option<int>): (r: (CreateResponse, Db))
    ensures (exists k :: k in RequiredFields && !Truthy(Field(body, k))) ==> r == (MissingFieldsError, db)
    ensures HasRequiredFields(body) && parseDate(Field(body, "date")).None? ==> r == (ServerError, db)
    ensures HasRequiredFields(body) && ToKey(Field(body, "category")).None? ==> r == (ServerError, db)
    ensures r.0.EventCreated? <==>
      && (forall k :: k in RequiredFields ==> Truthy(Field(body, k)))
      && parseDate(Field(body, "date")).Some?
      && ToKey(Field(body, "category")).Some?
    ensures r.0.CreateFailed? ==> r.1 == db && r.0.status in {400, 500}
    ensures r.0.EventCreated? ==>
      && r.1 == db.(events := db.events + [r.0.event], nextId := db.nextId + 1)
      && r.0.event.id == db.nextId
      && r.0.event.title == Field(body, "title")
      && r.0.event.description == Field(body, "description")
      && Some(r.0.event.date) == parseDate(Field(body, "date"))
      && r.0.event.time == Field(body, "time")
      && r.0.event.location == EventLocation(Field(body, "location"), Field(body, "address"))
      && r.0.event.category == CategoryFor(ToKey(Field(body, "category")).value)
      && r.0.event.speaker == (if Nullish(Field(body, "speaker")) then Str("") else Field(body, "speaker"))
      && r.0.event.posterUrl == Field(body, "posterUrl")
  {
    if !HasRequiredFields(body) then (MissingFieldsError, db)
    else match (parseDate(Field(body, "date")), ToKey(Field(body, "category")))
      case (None, _) => (ServerError, db)
      case (_, None) => (ServerError, db)
      case (Some(date), Some(key)) =>
        var event := Event(
          id := db.nextId,
          title := Field(body, "title"),
          description := Field(body, "description"),
          date := date,
          time := Field(body, "time"),
          location := EventLocation(Field(body, "location"), Field(body, "address")),
          category := CategoryFor(key),
          speaker := Coalesce(Field(body, "speaker"), Str("")),
          posterUrl := Field(body, "posterUrl"));
        (EventCreated(event), db.(events := db.events + [event], nextId := db.nextId + 1))
  }

  /** `POST /api/events` on whatever `req.json()` produced: `None` is a body
      that is not valid JSON. Parsing failures and a `null` body throw inside
      the handler's `try` and give 500; any other non-object value
      destructures to undefined fields and fails the required-field check. */
  function PostEvent(db: Db, parsed: Option<Json>, parseDate: Json -> Option<int>): (r: (CreateResponse, Db))
    ensures parsed.None? || Nullish(parsed.value) ==> r == (ServerError, db)
    ensures parsed.Some? && !Nullish(parsed.value) && !parsed.value.Obj? ==> r == (MissingFieldsError, db)
    ensures r.0.EventCreated? ==> parsed.Some? && parsed.value.Obj?
    ensures parsed.Some? && parsed.value.Obj? ==> r == CreateEvent(db, parsed.value.fields, parseDate)
  {
    match parsed
    case None => (ServerError, db)
    case Some(Undefined) => (ServerError, db)
    case Some(Null) => (ServerError, db)
    case Some(Obj(fields)) => CreateEvent(db, fields, parseDate)
    case Some(_) => CreateEvent(db, map[], parseDate)
  }

  /** A body without a category, or with one that is not a label, gets
      the lecture category. */
  lemma UnlabelledCategoryIsLecture(db: Db, body: map<string, Json>, parseDate: Json -> Option<int>)
    requires CreateEvent(db, body, parseDate).0.EventCreated?
    requires ToKey(Field(body, "category")).value !in CategoryMap
    ensures CreateEvent(db, body, parseDate).0.event.category == Lecture
  {
  }

  /** An object category with its own "toString" key makes the handler
      throw, so nothing is stored. */
  lemma ObjectCategoryWithToStringFails(db: Db, body: map<string, Json>, parseDate: Json -> Option<int>, cat: map<string, Json>)
    requires HasRequiredFields(body) && Field(body, "category") == Obj(cat)
    requires "toString" in cat
    ensures CreateEvent(db, body, parseDate) == (ServerError, db)
  {
  }

  /** Creating an event keeps the store consistent. */
  lemma CreateEventPreservesValid(db: Db, body: map<string, Json>, parseDate: Json -> Option<int>)
    requires Valid(db)
    ensures Valid(CreateEvent(db, body, parseDate).1)
  {
  }

  // ---------------------------------------------------------------------
  // GET /api/events: pagination
  // ---------------------------------------------------------------------

  const DefaultPage := 1
  const DefaultLimit := 10
  const MaxLimit := 50

  /** `Number(param) || d` on a query parameter: an absent or non-numeric
      parameter (`None`) and the value 0 are falsy and give `d`. */
  function NumberOr(param: Option<int>, d: int): int {
    match param
    case None => d
    case Some(n) => if n == 0 then d else n
  }

  function Max(a: int, b: int): int { if a >= b then a else b }
  function Min(a: int, b: int): int { if a <= b then a else b }

  /** The page actually served. */
  function EffectivePage(param: Option<int>): (page: int)
    ensures page >= 1
    ensures param.None? || param.value <= 0 ==> page == 1
    ensures param.Some? && param.value >= 1 ==> page == param.value
  {
    Max(1, NumberOr(param, DefaultPage))
  }

  /** The page size actually served. */
  function EffectiveLimit(param: Option<int>): (limit: int)
    ensures 1 <= limit <= MaxLimit
    ensures param.None? || param == Some(0) ==> limit == DefaultLimit
    ensures param.Some? && param.value < 0 ==> limit == 1
    ensures param.Some? && 1 <= param.value <= MaxLimit ==> limit == param.value
    ensures param.Some? && param.value > MaxLimit ==> limit == MaxLimit
  {
    Min(MaxLimit, Max(1, NumberOr(param, DefaultLimit)))
  }

  /** The number of events skipped before the served page: a whole number
      of pages of `limit` events. */
  function Skip(page: int, limit: int): (skip: nat)
    requires page >= 1 && limit >= 1
    ensures skip % limit == 0 && skip / limit == page - 1
  {
    MulPositive(page - 1, limit);
    DivExact(page - 1, limit);
    (page - 1) * limit
  }

  lemma MulPositive(q: nat, b: int)
    requires b >= 1
    ensures q * b >= q
  {
  }

  /** Euclidean division of a multiple recovers the factor exactly. */
  lemma DivExact(q: nat, b: int)
    requires b >= 1
    ensures (q * b) % b == 0 && (q * b) / b == q
  {
    var a := q * b;
    var d, m := a / b, a % b;
    assert a == d * b + m && 0 <= m < b;
    assert (q - d) * b == m;
    assert !(q - d >= 1) && !(q - d <= -1);
  }

  /** `Math.ceil(total / limit)` for a whole number of events. */
  function TotalPages(total: nat, limit: int): (pages: nat)
    requires limit >= 1
    ensures pages * limit >= total
    ensures total > 0 ==> (pages - 1) * limit < total
    ensures pages == 0 <==> total == 0
  {
    var q := (total + limit - 1) / limit;
    DivBounds(total + limit - 1, limit);
    q
  }

  lemma DivBounds(a: nat, b: int)
    requires b >= 1
    ensures (a / b) * b <= a < (a / b) * b + b
  {
  }

  // ---------------------------------------------------------------------
  // GET /api/events: ordering, page slice and projection
  // ---------------------------------------------------------------------

  ghost predicate NewestFirst(s: seq<Event>) {
    forall i, j :: 0 <= i < j < |s| ==> s[i].date >= s[j].date
  }

  /** Insert `e` into a newest-first sequence. */
  function Insert(e: Event, s: seq<Event>): (r: seq<Event>)
    requires NewestFirst(s)
    ensures NewestFirst(r)
    ensures multiset(r) == multiset(s) + multiset{e}
    ensures forall k :: 0 <= k < |r| ==> r[k] == e || r[k] in s
  {
    if |s| == 0 || e.date >= s[0].date then [e] + s
    else
      var rest := Insert(e, s[1..]);
      ConsNewestFirst(s, e, rest);
      assert s == [s[0]] + s[1..];
      [s[0]] + rest
  }

  lemma ConsNewestFirst(s: seq<Event>, e: Event, rest: seq<Event>)
    requires NewestFirst(s) && |s| > 0 && e.date < s[0].date
    requires NewestFirst(rest)
    requires forall k :: 0 <= k < |rest| ==> rest[k] == e || rest[k] in s[1..]
    ensures NewestFirst([s[0]] + rest)
  {
  }

  /** The store's events ordered by date, newest first (`orderBy: { date:
      "desc" }`). */
  function SortNewestFirst(s: seq<Event>): (r: seq<Event>)
    ensures NewestFirst(r)
    ensures multiset(r) == multiset(s)
  {
    if |s| == 0 then []
    else
      assert s == [s[0]] + s[1..];
      Insert(s[0], SortNewestFirst(s[1..]))
  }

  /** The fields the listing selects: no id, description, speaker or poster. */
  datatype EventSummary = EventSummary(title: Json, date: int, time: Json, location: EventLocation, category: Category)

  function Summary(e: Event): EventSummary {
    EventSummary(e.title, e.date, e.time, e.location, e.category)
  }

  datatype Meta = Meta(total: nat, page: int, limit: int, totalPages: nat)

  datatype Listing = Listing(meta: Meta, data: seq<EventSummary>)

  /** `skip`/`take` on the ordered events. */
  function PageOf(s: seq<Event>, skip: nat, take: nat): (r: seq<Event>)
    ensures |r| == Min(take, Max(0, |s| - skip))
    ensures forall k :: 0 <= k < |r| ==> skip + k < |s| && r[k] == s[skip + k]
  {
    if skip >= |s| then []
    else s[skip..Min(|s|, skip + take)]
  }

  function Summaries(s: seq<Event>): (r: seq<EventSummary>)
    ensures |r| == |s|
    ensures forall k :: 0 <= k < |s| ==> r[k] == Summary(s[k])
  {
    seq(|s|, k requires 0 <= k < |s| => Summary(s[k]))
  }

  /** `GET /api/events?page=&limit=`: the summaries of the events at
      positions `skip .. skip + limit` of the newest-first ordering. */
  function ListEvents(db: Db, pageParam: Option<int>, limitParam: Option<int>): (r: Listing)
    ensures r.meta.page == EffectivePage(pageParam) && r.meta.limit == EffectiveLimit(limitParam)
    ensures r.meta.total == |db.events|
    ensures r.meta.totalPages == TotalPages(|db.events|, r.meta.limit)
    ensures |r.data| <= r.meta.limit
    ensures forall i, j :: 0 <= i < j < |r.data| ==> r.data[i].date >= r.data[j].date
    ensures r.data == Summaries(PageOf(SortNewestFirst(db.events), Skip(r.meta.page, r.meta.limit), r.meta.limit))
  {
    var page := EffectivePage(pageParam);
    var limit := EffectiveLimit(limitParam);
    var sorted := SortNewestFirst(db.events);
    var slice := PageOf(sorted, Skip(page, limit), limit);
    Listing(Meta(|db.events|, page, limit, TotalPages(|db.events|, limit)), Summaries(slice))
  }

  /** Every served entry is the summary of a stored event. */
  lemma ListedEventsAreStored(db: Db, pageParam: Option<int>, limitParam: Option<int>, k: int)
    requires 0 <= k < |ListEvents(db, pageParam, limitParam).data|
    ensures exists e :: e in db.events && ListEvents(db, pageParam, limitParam).data[k] == Summary(e)
  {
    var r := ListEvents(db, pageParam, limitParam);
    var sorted := SortNewestFirst(db.events);
    var slice := PageOf(sorted, Skip(r.meta.page, r.meta.limit), r.meta.limit);
    assert slice[k] in multiset(sorted);
    assert slice[k] in db.events;
  }

  /** Two adjacent windows of `take` events make one window of `2 * take`. */
  lemma AdjacentWindows(s: seq<Event>, skip: nat, take: nat)
    ensures PageOf(s, skip, take) + PageOf(s, skip + take, take) == PageOf(s, skip, take + take)
  {
  }

  /** Consecutive pages tile the ordered events: page `p + 1` starts exactly
      where page `p` ends. */
  lemma PagesAreContiguous(db: Db, p: int, limitParam: Option<int>)
    requires p >= 1
    ensures var limit := EffectiveLimit(limitParam);
      var sorted := SortNewestFirst(db.events);
      PageOf(sorted, Skip(p, limit), limit) + PageOf(sorted, Skip(p + 1, limit), limit)
        == PageOf(sorted, Skip(p, limit), limit + limit)
  {
    var limit := EffectiveLimit(limitParam);
    var sorted := SortNewestFirst(db.events);
    var here, next := Skip(p, limit), Skip(p + 1, limit);
    SkipNext(p, limit);
    AdjacentWindows(sorted, here, limit);
    assert PageOf(sorted, next, limit) == PageOf(sorted, here + limit, limit);
  }

  /** The next page starts one limit further on. */
  lemma SkipNext(p: int, limit: int)
    requires p >= 1 && limit >= 1
    ensures Skip(p + 1, limit) == Skip(p, limit) + limit
  {
    MulSucc(p - 1, limit);
  }

  lemma MulSucc(q: int, b: int)
    ensures (q + 1) * b == q * b + b
  {
  }
}

=== FILE: events_page.dfy ===
/** The events page: a category filter over the event list and the row of
    category buttons built from it. */
module EventsPage {
  import opened Optional
  import opened JsValues
  import opened Seqs

  datatype ListedEvent = ListedEvent(id: nat, title: string, date: string, location: string, category: string)

  /** The page's fixed event list. */
  const MockEvents: seq<ListedEvent> := [
    ListedEvent(1, "مجلس عزاء الإمام الحسين (ع)", "2024-08-15", "الحسينية الكبرى - بغداد", "عزاء"),
    ListedEvent(2, "محاضرة في سيرة أهل البيت (ع)", "2024-08-18", "مسجد الإمام علي - النجف", "محاضرة"),
    ListedEvent(3, "قراءة دعاء كميل", "2024-08-20", "مسجد الكوفة - الكوفة", "دعاء"),
    ListedEvent(4, "ندوة فقهية", "2024-08-22", "الحوزة العلمية - قم", "ندوة")
  ]

  /** `filteredEvents`: with no selected category (`null`, or the falsy
      empty string) every event, otherwise the events of that category. */
  function FilteredEvents(events: seq<ListedEvent>, selected: Option<string>): (r: seq<ListedEvent>)
    ensures !Present(selected) ==> r == events
    ensures Present(selected) ==> forall k :: 0 <= k < |r| ==> r[k].category == selected.value && r[k] in events
    ensures Present(selected) ==> forall i :: 0 <= i < |events| && events[i].category == selected.value ==> events[i] in r
  {
    if Present(selected) then Filter((e: ListedEvent) => e.category == selected.value, events)
    else events
  }

  /** With a category selected, the shown events are the list read at the
      ascending indices of the events of that category. */
  lemma FilteredEventsKeepOrder(events: seq<ListedEvent>, c: string)
    requires c != ""
    ensures var p := (e: ListedEvent) => e.category == c;
      var idx := KeptIndices(p, events);
      var r := FilteredEvents(events, Some(c));
      && |r| == |idx|
      && StrictlyIncreasing(idx)
      && (forall k :: 0 <= k < |idx| ==> idx[k] < |events| && r[k] == events[idx[k]])
      && (forall i :: 0 <= i < |events| ==> (i in idx <==> events[i].category == c))
  {
    FilterIsSubsequence((e: ListedEvent) => e.category == c, events);
  }

  /** The empty-state message is rendered when nothing is shown. */
  predicate ShowsEmptyState(events: seq<ListedEvent>, selected: Option<string>) {
    |FilteredEvents(events, selected)| == 0
  }

  /** The empty state appears exactly when the list is empty or, with a
      category selected, no event has that category. */
  lemma EmptyStateIff(events: seq<ListedEvent>, selected: Option<string>)
    ensures ShowsEmptyState(events, selected) <==>
      (|events| == 0 || (Present(selected) && forall i :: 0 <= i < |events| ==> events[i].category != selected.value))
  {
    if Present(selected) && |FilteredEvents(events, selected)| > 0 {
      assert FilteredEvents(events, selected)[0] in events;
    }
  }

  function CategoryOf(events: seq<ListedEvent>): seq<string> {
    seq(|events|, i requires 0 <= i < |events| => events[i].category)
  }

  /** `categories`: each category once, in order of first appearance. */
  function Categories(events: seq<ListedEvent>): (r: seq<string>)
    ensures NoDuplicates(r)
    ensures forall k :: 0 <= k < |r| ==> exists i :: 0 <= i < |events| && events[i].category == r[k]
    ensures forall i :: 0 <= i < |events| ==> events[i].category in r
  {
    var cs := CategoryOf(events);
    var r := Distinct(cs);
    assert forall k :: 0 <= k < |r| ==> r[k] in cs;
    assert forall i :: 0 <= i < |events| ==> cs[i] == events[i].category;
    r
  }

  /** Earlier buttons are for categories whose first event comes earlier. */
  lemma CategoriesInFirstOccurrenceOrder(events: seq<ListedEvent>)
    ensures forall i, j :: 0 <= i < j < |Categories(events)| ==>
      FirstIndex(CategoryOf(events), Categories(events)[i]) < FirstIndex(CategoryOf(events), Categories(events)[j])
  {
    DistinctFirstOccurrenceOrder(CategoryOf(events));
  }

  /** On the page's own list every event has its own category, so there
      are four buttons in list order. */
  lemma MockCategories()
    ensures Categories(MockEvents) == ["عزاء", "محاضرة", "دعاء", "ندوة"]
  {
    var cs := CategoryOf(MockEvents);
    assert cs == ["عزاء", "محاضرة", "دعاء", "ندوة"];
    assert cs[..1][..0] == [];
    assert Distinct(cs[..1]) == ["عزاء"];
    assert cs[..2][..1] == cs[..1];
    assert Distinct(cs[..2]) == ["عزاء", "محاضرة"];
    assert cs[..3][..2] == cs[..2];
    assert Distinct(cs[..3]) == ["عزاء", "محاضرة", "دعاء"];
    assert cs[..3] == cs[..|cs| - 1];
  }
}

=== FILE: js_values.dfy ===
/** JSON values as a request handler receives them, with the JavaScript
    rules the handlers rely on: truthiness (`!x`), nullish coalescing
    (`x ?? d`) and the string conversion applied to a value used as a
    property key (`obj[x]`). Numbers are restricted to integers. */
module JsValues {
  import opened Optional

  datatype Json =
    | Undefined
    | Null
    | Bool(b: bool)
    | Num(n: int)
    | Str(s: string)
    | Arr(items: seq<Json>)
    | Obj(fields: map<string, Json>)

  /** `!!v` in JavaScript. */
  predicate Truthy(v: Json) {
    match v
    case Undefined => false
    case Null => false
    case Bool(b) => b
    case Num(n) => n != 0
    case Str(s) => s != ""
    case Arr(_) => true
    case Obj(_) => true
  }

  predicate Nullish(v: Json) {
    v.Undefined? || v.Null?
  }

  /** `v ?? d` in JavaScript. */
  function Coalesce(v: Json, d: Json): Json {
    if Nullish(v) then d else v
  }

  /** Reading `body.k` from a destructured request body: a key that is not
      there reads as `undefined`. */
  function Field(body: map<string, Json>, k: string): Json {
    if k in body then body[k] else Undefined
  }

  /** Truthiness of a field the source types as an optional string:
      absent, `null` and `""` are all falsy. */
  predicate Present(o: Option<string>) {
    o.Some? && o.value != ""
  }

  /** `s.includes(t)` for strings. */
  predicate Contains(s: string, t: string)
    decreases |s|
  {
    if |s| < |t| then false
    else s[..|t|] == t || Contains(s[1..], t)
  }

  function DigitChar(d: nat): char
    requires d < 10
  {
    "0123456789"[d]
  }

  /** Decimal rendering of a non-negative integer, as `String(n)`. */
  function NatToString(n: nat): string
    decreases n
  {
    if n < 10 then [DigitChar(n)]
    else NatToString(n / 10) + [DigitChar(n % 10)]
  }

  function IntToString(n: int): string {
    if n < 0 then "-" + NatToString(-n) else NatToString(n)
  }

  /** The string a value turns into when it is used as a property key, or
      `None` when the conversion throws a TypeError. Arrays join their
      elements with commas (null and undefined elements become empty). A
      plain object converts through its `toString` and then its `valueOf`:
      without an own "toString" key it inherits `Object.prototype.toString`
      and becomes "[object Object]"; with one, that member is a JSON value
      and not callable, the inherited `valueOf` returns the object itself,
      and no primitive is reached. */
  function ToKey(v: Json): Option<string>
    decreases v, 1, 0
  {
    match v
    case Undefined => Some("undefined")
    case Null => Some("null")
    case Bool(b) => Some(if b then "true" else "false")
    case Num(n) => Some(IntToString(n))
    case Str(s) => Some(s)
    case Arr(items) => JoinKeys(v, 0)
    case Obj(fields) => if "toString" in fields then None else Some("[object Object]")
  }

  /** The comma-joined keys of the elements of array `v` from index `i` on;
      `None` when some element's conversion throws. */
  function JoinKeys(v: Json, i: nat): Option<string>
    requires v.Arr? && i <= |v.items|
    decreases v, 0, |v.items| - i
  {
    if i == |v.items| then Some("")
    else
      var x := v.items[i];
      var part := if Nullish(x) then Some("") else ToKey(x);
      if part.None? then None
      else if i + 1 == |v.items| then part
      else
        var rest := JoinKeys(v, i + 1);
        if rest.None? then None else Some(part.value + "," + rest.value)
  }

  /** A one-element array of a string converts to that very string, so
      `obj[["k"]]` reads `obj["k"]`. */
  lemma SingletonArrayKey(s: string)
    ensures ToKey(Arr([Str(s)])) == Some(s)
  {
    var v := Arr([Str(s)]);
    assert v.items[0] == Str(s);
    assert JoinKeys(v, 0) == ToKey(Str(s));
  }

  /** Conversion throws for an object with an own "toString" key, and for
      an array holding such an object after string elements. */
  lemma KeyConversionThrows(fields: map<string, Json>, before: seq<Json>, after: seq<Json>)
    requires "toString" in fields
    requires forall k :: 0 <= k < |before| ==> before[k].Str?
    ensures ToKey(Obj(fields)) == None
    ensures ToKey(Arr(before + [Obj(fields)] + after)) == None
  {
    var v := Arr(before + [Obj(fields)] + after);
    JoinKeysThrowsFrom(v, 0, |before|);
  }

  /** An element whose conversion throws makes the join from any earlier
      index throw, provided the elements in between are strings. */
  lemma {:induction false} JoinKeysThrowsFrom(v: Json, i: nat, j: nat)
    requires v.Arr? && i <= j < |v.items|
    requires forall k :: i <= k < j ==> v.items[k].Str?
    requires v.items[j].Obj? && "toString" in v.items[j].fields
    ensures JoinKeys(v, i) == None
    decreases j - i
  {
    if i < j {
      JoinKeysThrowsFrom(v, i + 1, j);
    }
  }
}

=== FILE: login.dfy ===
/** `POST /api/auth/login`: check the credentials and issue a signed
    session token carrying the user's id and role. */
module Login {
  import opened Optional
  import opened JsValues
  import opened Store
  import Signup

  datatype LoginRequest = LoginRequest(email: Option<string>, password: Option<string>)

  /** What the session token carries: no organization id. */
  datatype TokenPayload = TokenPayload(userId: nat, role: Role)

  datatype LoginResponse =
    | LoggedIn(token: string, user: PublicUser)
    | LoginFailed(status: nat, error: string)

  /** Seven days, the token's `expiresIn`. */
  const TokenLifetimeSeconds: nat := 7 * 24 * 60 * 60

  const DevSecret := "dev-secret"

  const MissingFields := LoginFailed(400, "Missing fields")

  /** The one answer for an unknown email and for a wrong password. */
  const InvalidCredentials := LoginFailed(401, "Invalid credentials")

  /** `process.env.JWT_SECRET || "dev-secret"`. */
  function JwtSecret(env: Option<string>): (secret: string)
    ensures Present(env) ==> secret == env.value
    ensures !Present(env) ==> secret == DevSecret
  {
    if Present(env) then env.value else DevSecret
  }

  /** `POST /api/auth/login`. `verify` stands for bcrypt's compare and
      `sign` for signing a payload with a secret and a lifetime in
      seconds. The operation returns no store: it never writes one. */
  function HandleLogin(
    db: Db, req: LoginRequest,
    verify: (string, string) -> bool,
    sign: (TokenPayload, string, nat) -> string,
    secretEnv: Option<string>): (r: LoginResponse)
    ensures !Present(req.email) || !Present(req.password) ==> r == MissingFields
    ensures r.LoggedIn? <==>
      && Present(req.email) && Present(req.password)
      && req.email.value in db.users
      && verify(req.password.value, db.users[req.email.value].passwordHash)
    ensures r.LoginFailed? ==> r == MissingFields || r == InvalidCredentials
    ensures r.LoggedIn? ==>
      var u := db.users[req.email.value];
      && r.token == sign(TokenPayload(u.id, u.role), JwtSecret(secretEnv), TokenLifetimeSeconds)
      && r.user == PublicUser(u.id, u.email, u.name)
  {
    if !Present(req.email) || !Present(req.password) then MissingFields
    else if req.email.value !in db.users then InvalidCredentials
    else
      var user := db.users[req.email.value];
      if !verify(req.password.value, user.passwordHash) then InvalidCredentials
      else
        var token := sign(TokenPayload(user.id, user.role), JwtSecret(secretEnv), TokenLifetimeSeconds);
        LoggedIn(token, Public(user))
  }

  /** An unknown email and a known email with a wrong password get the same
      status and body, so the answer does not reveal which one failed. */
  lemma FailuresLookAlike(
    db: Db, unknown: LoginRequest, wrong: LoginRequest,
    verify: (string, string) -> bool,
    sign: (TokenPayload, string, nat) -> string,
    secretEnv: Option<string>)
    requires Present(unknown.email) && Present(unknown.password) && unknown.email.value !in db.users
    requires Present(wrong.email) && Present(wrong.password) && wrong.email.value in db.users
    requires !verify(wrong.password.value, db.users[wrong.email.value].passwordHash)
    ensures HandleLogin(db, unknown, verify, sign, secretEnv) == HandleLogin(db, wrong, verify, sign, secretEnv)
    ensures HandleLogin(db, unknown, verify, sign, secretEnv) == InvalidCredentials
  {
  }

  /** Whoever just signed up can log in with the same email and password,
      provided `verify` accepts a password against its own hash; the token
      carries the new user's id and the role the account type gave. */
  lemma SignupThenLogin(
    db: Db, req: Signup.SignupRequest,
    hash: (string, nat) -> string, faults: Signup.StoreFaults,
    verify: (string, string) -> bool,
    sign: (TokenPayload, string, nat) -> string,
    secretEnv: Option<string>)
    requires Signup.HandleSignup(db, req, hash, faults).0.SignedUp?
    requires req.password.Some? && verify(req.password.value, hash(req.password.value, Signup.BcryptCost))
    ensures var (resp, db') := Signup.HandleSignup(db, req, hash, faults);
      HandleLogin(db', LoginRequest(req.email, req.password), verify, sign, secretEnv)
        == LoggedIn(
             sign(TokenPayload(resp.user.id, Signup.RoleFor(req.accountType)), JwtSecret(secretEnv), TokenLifetimeSeconds),
             resp.user)
  {
    if req.accountType == Some(Signup.OrganizationAccount) {
      Signup.OrganizationSignupEffect(db, req, hash, faults);
    } else {
      Signup.UserSignupEffect(db, req, hash, faults);
    }
  }
}

=== FILE: optional.dfy ===
/** A value that may be missing: an absent query parameter, an omitted
    request field, no stored token. */
module Optional {

  datatype Option<+T> = None | Some(value: T) {

    /** `x ?? fallback` on an optional field: the field when present. */
    function Or(fallback: T): T {
      if Some? then value else fallback
    }
  }
}

=== FILE: seqs.dfy ===
/** Order-preserving sequence operations shared by the client pages:
    `Array.prototype.filter` and `Array.from(new Set(xs))`. */
module Seqs {

  /** `s.filter(p)`: the elements satisfying `p`, in their original order. */
  function Filter<T>(p: T -> bool, s: seq<T>): (r: seq<T>)
    ensures |r| <= |s|
    ensures forall k :: 0 <= k < |r| ==> r[k] in s && p(r[k])
    ensures forall i :: 0 <= i < |s| && p(s[i]) ==> s[i] in r
    decreases |s|
  {
    if |s| == 0 then []
    else Filter(p, s[..|s| - 1]) + (if p(s[|s| - 1]) then [s[|s| - 1]] else [])
  }

  /** The indices of `s` whose element satisfies `p`, ascending. */
  function KeptIndices<T>(p: T -> bool, s: seq<T>): seq<nat>
    decreases |s|
  {
    if |s| == 0 then []
    else KeptIndices(p, s[..|s| - 1]) + (if p(s[|s| - 1]) then [|s| - 1] else [])
  }

  ghost predicate StrictlyIncreasing(xs: seq<nat>) {
    forall i, j :: 0 <= i < j < |xs| ==> xs[i] < xs[j]
  }

  /** The kept indices are ascending, in range, and exactly those whose
      element satisfies `p`. */
  lemma {:induction false} KeptIndicesSpec<T>(p: T -> bool, s: seq<T>)
    ensures StrictlyIncreasing(KeptIndices(p, s))
    ensures forall k :: 0 <= k < |KeptIndices(p, s)| ==> KeptIndices(p, s)[k] < |s|
    ensures forall i :: 0 <= i < |s| ==> (i in KeptIndices(p, s) <==> p(s[i]))
    decreases |s|
  {
    if |s| > 0 {
      var t := s[..|s| - 1];
      KeptIndicesSpec(p, t);
      var kt := KeptIndices(p, t);
      assert KeptIndices(p, s) == kt + (if p(s[|s| - 1]) then [|s| - 1] else []);
      assert forall i :: 0 <= i < |t| ==> s[i] == t[i];
      assert |s| - 1 !in kt;
    }
  }

  /** `Filter(p, s)` is exactly `s` read at the ascending indices whose
      element satisfies `p`: nothing is reordered, dropped or invented. */
  lemma {:induction false} FilterIsSubsequence<T>(p: T -> bool, s: seq<T>)
    ensures |Filter(p, s)| == |KeptIndices(p, s)|
    ensures StrictlyIncreasing(KeptIndices(p, s))
    ensures forall k :: 0 <= k < |KeptIndices(p, s)| ==>
      KeptIndices(p, s)[k] < |s| && Filter(p, s)[k] == s[KeptIndices(p, s)[k]]
    ensures forall i :: 0 <= i < |s| ==> (i in KeptIndices(p, s) <==> p(s[i]))
    decreases |s|
  {
    KeptIndicesSpec(p, s);
    if |s| > 0 {
      var t := s[..|s| - 1];
      FilterIsSubsequence(p, t);
      var kt := KeptIndices(p, t);
      var ft := Filter(p, t);
      assert forall k :: 0 <= k < |kt| ==> ft[k] == s[kt[k]];
    }
  }

  ghost predicate NoDuplicates<T>(s: seq<T>) {
    forall i, j :: 0 <= i < j < |s| ==> s[i] != s[j]
  }

  /** The index of the first occurrence of `x` in `s`. */
  function FirstIndex<T(==)>(s: seq<T>, x: T): (i: nat)
    requires x in s
    ensures i < |s| && s[i] == x
    ensures forall j :: 0 <= j < i ==> s[j] != x
  {
    if s[0] == x then 0 else 1 + FirstIndex(s[1..], x)
  }

  /** `Array.from(new Set(s))`: each distinct element once, at the position
      of its first occurrence (a JavaScript Set keeps insertion order). */
  function Distinct<T(==)>(s: seq<T>): (r: seq<T>)
    ensures NoDuplicates(r)
    ensures forall k :: 0 <= k < |r| ==> r[k] in s
    ensures forall i :: 0 <= i < |s| ==> s[i] in r
    decreases |s|
  {
    if |s| == 0 then []
    else
      var d := Distinct(s[..|s| - 1]);
      var last := s[|s| - 1];
      if last in d then d else d + [last]
  }

  /** Earlier entries of `Distinct(s)` first occur earlier in `s`. */
  lemma {:induction false} DistinctFirstOccurrenceOrder<T>(s: seq<T>)
    ensures forall i, j :: 0 <= i < j < |Distinct(s)| ==>
      FirstIndex(s, Distinct(s)[i]) < FirstIndex(s, Distinct(s)[j])
    decreases |s|
  {
    if |s| > 0 {
      var t := s[..|s| - 1];
      var last := s[|s| - 1];
      DistinctFirstOccurrenceOrder(t);
      forall x | x in t
        ensures FirstIndex(s, x) == FirstIndex(t, x)
      {
        FirstIndexOfPrefix(t, s, x);
      }
      if last !in t {
        var d := Distinct(s);
        forall i | 0 <= i < |d| - 1
          ensures FirstIndex(s, d[i]) < FirstIndex(s, last)
        {
          assert d[i] in t;
          assert FirstIndex(s, last) == |s| - 1;
        }
      }
    }
  }

  /** First occurrences of elements of `t` do not move when `t` is extended. */
  lemma FirstIndexOfPrefix<T>(t: seq<T>, s: seq<T>, x: T)
    requires x in t && |t| <= |s| && s[..|t|] == t
    ensures FirstIndex(s, x) == FirstIndex(t, x)
  {
  }
}

=== FILE: signup.dfy ===
/** `POST /api/auth/signup`: validate, reject a taken email, hash the
    password, then create the user and, for an organization account, its
    organization inside one all-or-nothing transaction. */
module Signup {
  import opened Optional
  import opened JsValues
  import opened Store

  datatype SignupRequest = SignupRequest(
    name: Option<string>,
    email: Option<string>,
    password: Option<string>,
    accountType: Option<string>,
    organizationName: Option<string>,
    organizationDescription: Option<string>,
    location: Option<OrgLocation>)

  /** Errors the store may throw inside the transaction, by message: at the
      user insert and at the organization insert (a unique-email violation
      from a concurrent signup, a lost connection, ...). */
  datatype StoreFaults = StoreFaults(onUserCreate: Option<string>, onOrgCreate: Option<string>)

  datatype SignupResponse =
    | SignedUp(user: PublicUser, organization: Option<Organization>)
    | SignupFailed(status: nat, error: string)

  const MissingFields := SignupFailed(400, "Missing fields")
  const EmailInUse := SignupFailed(409, "Email already in use")

  /** The bcrypt cost factor the password is hashed with. */
  const BcryptCost: nat := 10

  const OrganizationAccount := "organization"

  /** The message of the error thrown when an organization signup lacks
      its name. */
  const MissingOrgNameMessage := "Missing organizationName for organization signup"

  /** Only the exact account type "organization" makes an organizer. */
  function RoleFor(accountType: Option<string>): (role: Role)
    ensures role == Organizer <==> accountType == Some(OrganizationAccount)
    ensures role == UserRole <==> accountType != Some(OrganizationAccount)
  {
    if accountType == Some(OrganizationAccount) then Organizer else UserRole
  }

  /** The error text of the 400 answer to an aborted transaction. */
  function CatchMessage(message: string): (m: string)
    ensures m == "Missing organization data" <==> Contains(message, "organizationName")
    ensures m == "Server error" <==> !Contains(message, "organizationName")
  {
    if Contains(message, "organizationName") then "Missing organization data" else "Server error"
  }

  /** `t` occurs in `s` at `i`, so `s.includes(t)`. */
  lemma {:induction false} ContainsAt(s: string, t: string, i: nat)
    requires i + |t| <= |s| && s[i..i + |t|] == t
    ensures Contains(s, t)
    decreases i
  {
    if i > 0 {
      assert s[1..][i - 1..i - 1 + |t|] == t;
      ContainsAt(s[1..], t, i - 1);
    }
  }

  datatype TxOutcome =
    | Committed(user: User, organization: Option<Organization>, db: Db)
    | Aborted(message: string)

  /** The body of the transaction: insert the user, then, for an
      organization account, insist on a name and insert the organization.
      A thrown error aborts it and nothing it wrote persists. */
  function Transaction(db: Db, req: SignupRequest, passwordHash: string, faults: StoreFaults): TxOutcome
    requires req.email.Some? && req.name.Some?
  {
    if faults.onUserCreate.Some? then Aborted(faults.onUserCreate.value)
    else
      var user := User(db.nextId, req.name.value, req.email.value, passwordHash, RoleFor(req.accountType));
      var withUser := db.(users := db.users[req.email.value := user], nextId := db.nextId + 1);
      if req.accountType != Some(OrganizationAccount) then Committed(user, None, withUser)
      else if !Present(req.organizationName) then Aborted(MissingOrgNameMessage)
      else if faults.onOrgCreate.Some? then Aborted(faults.onOrgCreate.value)
      else
        var org := Organization(
          withUser.nextId, user.id, req.organizationName.value,
          req.organizationDescription.Or(""), req.location);
        Committed(user, Some(org), withUser.(orgs := withUser.orgs + [org], nextId := withUser.nextId + 1))
  }

  /** `POST /api/auth/signup`. `hash` stands for bcrypt. Every failure
      leaves the store exactly as it was. */
  function HandleSignup(db: Db, req: SignupRequest, hash: (string, nat) -> string, faults: StoreFaults): (r: (SignupResponse, Db))
    ensures !Present(req.name) || !Present(req.email) || !Present(req.password) ==> r == (MissingFields, db)
    ensures Present(req.name) && Present(req.email) && Present(req.password) && req.email.value in db.users
      ==> r == (EmailInUse, db)
    ensures r.0.SignupFailed? ==> r.1 == db && r.0.status in {400, 409}
    ensures Admissible(db, req) && r.0.SignupFailed? ==> r.0.status == 400
    ensures Admissible(db, req) && faults.onUserCreate.Some? ==>
      r == (SignupFailed(400, CatchMessage(faults.onUserCreate.value)), db)
    ensures && Admissible(db, req) && faults.onUserCreate.None?
            && req.accountType == Some(OrganizationAccount) && Present(req.organizationName)
            && faults.onOrgCreate.Some?
      ==> r == (SignupFailed(400, CatchMessage(faults.onOrgCreate.value)), db)
    ensures r.0.SignedUp? ==> req.email.Some? && req.email.value !in db.users && req.email.value in r.1.users
  {
    if !Present(req.email) || !Present(req.password) || !Present(req.name) then (MissingFields, db)
    else if req.email.value in db.users then (EmailInUse, db)
    else
      var passwordHash := hash(req.password.value, BcryptCost);
      match Transaction(db, req, passwordHash, faults)
      case Aborted(message) => (SignupFailed(400, CatchMessage(message)), db)
      case Committed(user, org, db') => (SignedUp(Public(user), org), db')
  }

  /** The request passes validation and names a new email. */
  predicate Admissible(db: Db, req: SignupRequest) {
    Present(req.name) && Present(req.email) && Present(req.password) && req.email.value !in db.users
  }

  /** Exactly when a signup succeeds. */
  lemma SignupSucceedsIff(db: Db, req: SignupRequest, hash: (string, nat) -> string, faults: StoreFaults)
    ensures HandleSignup(db, req, hash, faults).0.SignedUp? <==>
      && Admissible(db, req)
      && faults.onUserCreate.None?
      && (req.accountType == Some(OrganizationAccount) ==>
            Present(req.organizationName) && faults.onOrgCreate.None?)
  {
  }

  /** An organization signup without an organization name throws inside the
      transaction: the user already inserted is rolled back, no organization
      exists, and the answer is 400 "Missing organization data". */
  lemma MissingOrganizationNameRollsBack(db: Db, req: SignupRequest, hash: (string, nat) -> string, faults: StoreFaults)
    requires Admissible(db, req) && faults.onUserCreate.None?
    requires req.accountType == Some(OrganizationAccount) && !Present(req.organizationName)
    ensures HandleSignup(db, req, hash, faults) == (SignupFailed(400, "Missing organization data"), db)
  {
    var m := MissingOrgNameMessage;
    var (head, key, tail) := ("Missing ", "organizationName", " for organization signup");
    assert m == head + key + tail;
    assert m[|head|..|head| + |key|] == key;
    ContainsAt(m, key, |head|);
  }

  /** A successful organization signup adds one organizer, filed under the
      email with the hashed password, and one organization owned by that
      user, carrying the request's name, description and location; the
      response shows only the user's id, email and name. */
  lemma OrganizationSignupEffect(db: Db, req: SignupRequest, hash: (string, nat) -> string, faults: StoreFaults)
    requires HandleSignup(db, req, hash, faults).0.SignedUp?
    requires req.accountType == Some(OrganizationAccount)
    ensures var (resp, db') := HandleSignup(db, req, hash, faults);
      var email := req.email.value;
      var u := db'.users[email];
      && db'.users == db.users[email := u]
      && u == User(db.nextId, req.name.value, email, hash(req.password.value, BcryptCost), Organizer)
      && |db'.orgs| == |db.orgs| + 1 && db'.orgs[..|db.orgs|] == db.orgs
      && resp.organization == Some(db'.orgs[|db.orgs|])
      && db'.orgs[|db.orgs|].userId == u.id
      && db'.orgs[|db.orgs|].name == req.organizationName.value
      && db'.orgs[|db.orgs|].description == (if req.organizationDescription.Some? then req.organizationDescription.value else "")
      && db'.orgs[|db.orgs|].location == req.location
      && resp.user == PublicUser(u.id, email, req.name.value)
      && db'.events == db.events
  {
  }

  /** A successful signup of any other account type adds one plain user
      and no organization, and answers with a null organization. */
  lemma UserSignupEffect(db: Db, req: SignupRequest, hash: (string, nat) -> string, faults: StoreFaults)
    requires HandleSignup(db, req, hash, faults).0.SignedUp?
    requires req.accountType != Some(OrganizationAccount)
    ensures var (resp, db') := HandleSignup(db, req, hash, faults);
      var email := req.email.value;
      && db'.users == db.users[email := User(db.nextId, req.name.value, email, hash(req.password.value, BcryptCost), UserRole)]
      && db'.orgs == db.orgs
      && db'.events == db.events
      && resp.organization.None?
      && resp.user == PublicUser(db.nextId, email, req.name.value)
  {
  }

  /** Signup keeps the store consistent; in particular a user is an
      organizer exactly when they own an organization. */
  lemma SignupPreservesValid(db: Db, req: SignupRequest, hash: (string, nat) -> string, faults: StoreFaults)
    requires Valid(db)
    ensures Valid(HandleSignup(db, req, hash, faults).1)
  {
    var (resp, db') := HandleSignup(db, req, hash, faults);
    if resp.SignedUp? {
      var email := req.email.value;
      var u := db'.users[email];
      if req.accountType == Some(OrganizationAccount) {
        var org := db'.orgs[|db.orgs|];
        assert db' == db.(users := db.users[email := u], orgs := db.orgs + [org], nextId := db.nextId + 2);
        AddOrganizerPreservesValid(db, u, org);
      } else {
        assert db' == db.(users := db.users[email := u], nextId := db.nextId + 1);
        AddUserPreservesValid(db, u);
      }
    }
  }

  lemma AddUserPreservesValid(db: Db, u: User)
    requires Valid(db) && u.email !in db.users && u.id == db.nextId && u.role == UserRole
    ensures Valid(db.(users := db.users[u.email := u], nextId := db.nextId + 1))
  {
    var db' := db.(users := db.users[u.email := u], nextId := db.nextId + 1);
    UserIdsAfterInsert(db, db', u);
    assert OwnerIds(db') == OwnerIds(db);
    assert u.id !in OwnerIds(db);
  }

  lemma AddOrganizerPreservesValid(db: Db, u: User, org: Organization)
    requires Valid(db) && u.email !in db.users && u.id == db.nextId && u.role == Organizer
    requires org.userId == u.id && org.id == db.nextId + 1
    ensures Valid(db.(users := db.users[u.email := u], orgs := db.orgs + [org], nextId := db.nextId + 2))
  {
    var db' := db.(users := db.users[u.email := u], orgs := db.orgs + [org], nextId := db.nextId + 2);
    UserIdsAfterInsert(db, db', u);
    assert OwnerIds(db') == OwnerIds(db) + {u.id} by {
      assert db'.orgs[|db.orgs|] == org;
      assert forall i :: 0 <= i < |db.orgs| ==> db'.orgs[i] == db.orgs[i];
    }
    assert u.id !in OwnerIds(db);
  }

  lemma UserIdsAfterInsert(db: Db, db': Db, u: User)
    requires u.email !in db.users && db'.users == db.users[u.email := u]
    ensures UserIds(db') == UserIds(db) + {u.id}
  {
    assert u.id in UserIds(db') by {
      assert db'.users[u.email] == u;
    }
    forall x | x in UserIds(db)
      ensures x in UserIds(db')
    {
      var e :| e in db.users && db.users[e].id == x;
      assert db'.users[e] == db.users[e];
    }
  }
}

=== FILE: store.dfy ===
/** The persistent records the handlers read and write, and the shape of a
    consistent store. The relational database behind them is abstracted to
    one immutable record: users keyed by their unique email, organizations
    and events in creation order, and a counter that hands out fresh ids. */
module Store {
  import opened Optional
  import opened JsValues

  datatype Role = UserRole | Organizer

  datatype User = User(id: nat, name: string, email: string, passwordHash: string, role: Role)

  /** The fields of a user that responses expose: never the password hash. */
  datatype PublicUser = PublicUser(id: nat, email: string, name: string)

  function Public(u: User): PublicUser {
    PublicUser(u.id, u.email, u.name)
  }

  datatype OrgLocation = OrgLocation(region: Option<string>, addressDetail: Option<string>, mapsLink: Option<string>)

  datatype Organization = Organization(id: nat, userId: nat, name: string, description: string, location: Option<OrgLocation>)

  /** The five values of the event category enumeration. */
  datatype Category = Lecture | Prayer | Mourning | Seminar | Celebration


  /** An event's location as the creation handler stores it: the submitted
      `location` value under `name`, next to the submitted `address`. */
  datatype EventLocation = EventLocation(name: Json, address: Json)

  /** A stored event. `date` is the parsed date as an ordered key. */
  datatype Event = Event(
    id: nat,
    title: Json,
    description: Json,
    date: int,
    time: Json,
    location: EventLocation,
    category: Category,
    speaker: Json,
    posterUrl: Json)

  datatype Db = Db(users: map<string, User>, orgs: seq<Organization>, events: seq<Event>, nextId: nat)

  ghost function UserIds(db: Db): set<nat> {
    set e | e in db.users :: db.users[e].id
  }

  /** The ids of users that own an organization. */
  ghost function OwnerIds(db: Db): set<nat> {
    set i | 0 <= i < |db.orgs| :: db.orgs[i].userId
  }

  /** A consistent store: users are filed under their own email with
      distinct ids; every organization belongs to an existing user, and no
      user owns two; a user is an organizer exactly when they own an
      organization (both are created together or not at all); every id is
      below the counter and ids of one kind are distinct. */
  ghost predicate Valid(db: Db) {
    && (forall e :: e in db.users ==> db.users[e].email == e && db.users[e].id < db.nextId)
    && (forall e1, e2 :: e1 in db.users && e2 in db.users && e1 != e2 ==> db.users[e1].id != db.users[e2].id)
    && (forall i :: 0 <= i < |db.orgs| ==> db.orgs[i].id < db.nextId && db.orgs[i].userId in UserIds(db))
    && (forall i, j :: 0 <= i < j < |db.orgs| ==> db.orgs[i].id != db.orgs[j].id && db.orgs[i].userId != db.orgs[j].userId)
    && (forall e :: e in db.users ==> (db.users[e].role == Organizer <==> db.users[e].id in OwnerIds(db)))
    && (forall i :: 0 <= i < |db.events| ==> db.events[i].id < db.nextId)
    && (forall i, j :: 0 <= i < j < |db.events| ==> db.events[i].id != db.events[j].id)
  }
}
